=== FILE: README.md ===
# Email verification gate and capability download links, modelled in Dafny

This project models the access-control core of a small Django file-sharing
backend. It covers two request-handler groups, each written as a pure
function from (request fields, stored rows) to (response, new rows):

* `user_auth/views.py`. `verify` keeps a ledger of verification records. A
  request that carries only an email issues a four-digit code. A request with
  an email and a code redeems the latest non-expired record of that email,
  inside a 120-second window. `user_registration` is an ordered chain of
  guards: all fields present, a known role, an unused email, a completed
  verification, and a strong password.
* `share/views.py`. `get_user_role` reads the role table. Ops users may
  upload files, and only with an allowed extension. Client users may list the
  active files and ask for a download link. A link is the Fernet encryption of
  `"{user id}:{file id}"`. `secure_download` opens the token, checks the
  recipient and serves the file. Every failure except a wrong recipient
  collapses to "Invalid or expired link."

Modules, one per file:

| file | module | contents |
|---|---|---|
| wrappers.dfy | `Wrappers` | `Option` |
| seqs.dfy | `Seqs` | last/first matching index, filter (tables are sequences in primary-key order) |
| pytext.dfy | `PyText` | Python `str(int)`, `int(str)`, `str.split`, `str.rfind`, ASCII `str.lower` |
| pypath.dfy | `PyPath` | `os.path.splitext` and `os.path.basename` for POSIX paths |
| password.dfy | `Password` | the registration password regular expression as a predicate |
| roles.dfy | `Roles` | Role rows and `get_user_role` |
| verification.dfy | `Verification` | the Verification ledger and the `verify` handler |
| email.dfy | `Email` | Django's `normalize_email` |
| registration.dfy | `Registration` | users, the guard chain of `user_registration` |
| cipher.dfy | `Cipher` | Fernet as an abstract seal/open pair |
| share.dfy | `Share` | `upload_file`, `list_files`, `download_file`, `secure_download` |
| share_properties.dfy | `ShareProperties` | properties relating several share calls |

Inputs the handlers take from outside become parameters:

* `random.randint(1000, 9999)` becomes `randomCode`, required to be in that range.
* `datetime.now()` becomes `now`, in whole seconds.
* The outcome of the mail dispatch becomes `mailError` (None when the mail went out).
* The database's next primary key becomes `freshId`, required to be unused.
* Fernet becomes a `Cipher` value. Properties that need decryption to undo
  encryption take `Sound(c)` as a hypothesis. Fernet's random IV and
  timestamp become `nonce`.
* The requesting user's id becomes `user`.

Behaviour of the code that the model keeps as written:

* Redemption picks the record with the highest primary key among the
  non-expired records of the email (`.last()`), not the one with the newest
  `created_at`. This assumes the `Verification` model declares no
  `Meta.ordering` (see "## Left out").
* The window test is `timediff.seconds <= 120`. `timedelta.seconds` drops
  whole days, so the test is `(now - created_at) % 86400 <= 120`. A code
  redeemed one day and one minute after it was issued still verifies
  (`WindowIgnoresDays`). A clock that runs backwards by less than a day minus
  two minutes makes the code expired (`NegativeElapsedExpired`); one that runs
  backwards by between a day minus two minutes and a full day lands back
  inside the window.
* Issue C1, issue C2, redeem C1 answers "Code is not correct", not "Code does
  not exist". Once C2 has been redeemed, C1 is the latest non-expired record
  again and verifies if it is still inside its window
  (`SupersededCodeResurrects`). An email has at most one non-expired record
  only while it is never issued a second code before the first is retired by
  a matching code, verified or expired; a wrong code leaves the record live
  (`IssueKeepsSingleActive`, `RedeemKeepsSingleActive`).
* The password rule accepts 6 to 20 characters. The error message says "at
  least 8". The model follows the regular expression, including the one
  trailing newline that `$` admits under `re.match`.
* `create_user` stores the email normalized (stripped, domain lower-cased),
  while the "email already exists" guard compares the address as sent. A
  second request for "a@X.com" therefore passes that guard and fails with a
  server error on the taken username, while "a@x.com" is refused as an
  existing email (`RepeatedRequest`, `NormalizedAddressTaken`).
* Tokens never expire. `fernet.decrypt` is called without a time-to-live.

## Model

| member | source | states |
|---|---|---|
| `Seqs.LastIndexWhere` | user_auth/views.py:111 | the index found is the last one satisfying the filter, and None means no row satisfies it (Django `.last()` over rows in key order) |
| `Seqs.FilterMultiplicity` | share/views.py:55 | filtering keeps every matching row exactly as often as it occurs and drops every other row |
| `PyText.FormatInt` | share/views.py:80 | `str(n)` is a minus sign (only for negative n) followed by decimal digits; it never contains any other character, in particular no ':' |
| `PyText.ParseFormatRoundTrip` | share/views.py:91 | `int(str(n)) == n` for every integer n |
| `PyText.FormatNatFourDigits` | user_auth/views.py:83 | `str()` of a code drawn from 1000..9999 has exactly four digits |
| `PyText.SeparatorPaddingRefused` | share/views.py:91 | `int()` does not skip the separator '\x1c', so `int("\x1c5")` is a ValueError |
| `PyText.JoinSplit` | share/views.py:90 | joining the parts of `s.split(':')` with ':' gives back s |
| `PyText.SplitJoin` | share/views.py:90 | splitting the ':'-join of separator-free parts gives back exactly those parts |
| `PyText.Split` | share/views.py:90 | `split(':')` gives at least one part and no part contains ':' |
| `PyText.ParseInt` | share/views.py:91 | `int()` accepts only text that, once the surrounding white space is stripped, ends in a digit, and gives a negative number only when that text starts with '-' |
| `Password.IsStrong` | user_auth/views.py:31-32 | an accepted password contains a lower-case letter, an upper-case letter, a digit and one of the symbols; without a newline in it, it is accepted exactly when the whole string matches the body of the pattern |
| `Verification.WithinWindow` | user_auth/views.py:116-117 | a redemption 0 to 120 seconds after the issue is in the window, and one between 120 seconds and a day after it is not |
| `Share.AllowedName` | share/views.py:35-36 | a name passes the extension test only when its extension is a dot followed by four characters |
| `Share.Payload` | share/views.py:80 | the token plaintext splits on ':' into exactly `str(uid)` and `str(fid)` |
| `Share.Fields` | share/views.py:90 | two fields are taken only from a payload that is the first field, ':' and the second field, neither holding ':'; a payload without ':' has no fields |
| `Share.Recipient` | share/views.py:89-91 | a token names a recipient only when it opens to a payload with two fields, and the recipient is `int()` of the first field |
| `Share.Target` | share/views.py:89-93 | a token names a file only when it opens to a payload with two fields, and the file is `int()` of the second field |
| `Seqs.FilterConcat` | share/views.py:55 | filtering the concatenation of two row sequences filters each and keeps the first part's rows before the second's, so the listing keeps the table's order |
| `PyText.RFind` | share/views.py:35 | `rfind` gives -1 or the index of the character, and the character does not occur after it |
| `PyPath.SplitExt` | share/views.py:35 | `splitext` cuts the name into root + extension, and a non-empty extension is one dot followed by no further dot or '/' |
| `PyPath.HasExtensionIff` | share/views.py:35 | a name has an extension exactly when its last component holds a dot after a non-dot character, so `.docx` has none |
| `PyPath.ExtensionOfLower` | share/views.py:35 | the extension of the lower-cased name is the lower-cased extension |
| `Password.StrongLength` | user_auth/views.py:31-32 | an accepted password has 6 to 20 allowed characters plus at most one final newline: every character but the last is allowed, and the last is allowed or is a newline after at least six characters |
| `Password.InnerNewlineRejected` | user_auth/views.py:31-32 | a newline anywhere except at the very end is never accepted |
| `Password.NoSymbolRejected` | user_auth/views.py:31-32 | a password without one of the symbols @$!%*#?& is refused whatever else it holds |
| `Password.TestPasswordAccepted` | user_auth/tests.py:17-22 | the test password "Test@1234" is accepted |
| `Password.SixCharactersAccepted` | user_auth/views.py:32-36 | six characters are accepted, with or without a trailing newline, although the message asks for eight |
| `Roles.GetUserRole` | share/views.py:19-21 | the role is the one of the user's last Role row, and None exactly when the user has no row |
| `Roles.RoleOfNewRow` | user_auth/views.py:44 | a newly created Role row decides its user's role |
| `Roles.RoleOfOtherUser` | share/views.py:19-21 | a row for another user leaves a user's role unchanged |
| `Verification.LastActive` | user_auth/views.py:111 | the record consulted is a non-expired record of the email, no later record is one, and None means there is none |
| `Verification.Issue` | user_auth/views.py:83-88 | issuing appends exactly one record and leaves the old ones as they were; the new record is non-expired and unverified and holds a four-digit code whose `int()` is the drawn number; it is the record a redemption will now consult |
| `Verification.Redeem` | user_auth/views.py:110-129 | no live record gives "Code does not exist"; a different code gives "Code is not correct"; both leave the ledger unchanged. A matching code inside the window gives "Code verified" and sets expired and verified on that record only. Outside the window it gives "Expired code" and sets only expired |
| `Verification.Verify` | user_auth/views.py:78-132 | non-POST gives 405; an email without a code issues; an email with a code redeems `str(code)`; no email gives "Send code" with the ledger unchanged |
| `Verification.WindowWithinOneDay` | user_auth/views.py:117 | for an elapsed time under one day the window test is `elapsed <= 120` |
| `Verification.WindowIgnoresDays` | user_auth/views.py:116-117 | adding whole days to the elapsed time does not change the window test |
| `Verification.NegativeElapsedExpired` | user_auth/views.py:116-117 | a redemption timed before the issue by less than a day minus two minutes (a clock running backwards) is out of the window |
| `Verification.IssueThenRedeem` | user_auth/tests.py:34-55 | issuing a code and sending it back in time, as text or as a JSON number, verifies it and marks the record expired and verified |
| `Verification.IssueSurvivesMailFailure` | user_auth/views.py:85-109 | a failed mail dispatch answers 500 but stores the same record as a successful one |
| `Verification.RedeemedRecordRetired` | user_auth/views.py:111-120 | after a successful redemption the next redemption can only see records older than the one redeemed |
| `Verification.ReplayFindsNoCode` | user_auth/views.py:111-120 | with a single live record, redeeming the same code again answers "Code does not exist" and changes nothing |
| `Verification.SupersededCodeResurrects` | user_auth/views.py:111-127 | after two issues the first code is refused as incorrect; after the second is redeemed the first verifies again |
| `Verification.IssueKeepsSingleActive` | user_auth/views.py:84-88 | an issue keeps one live record per email exactly when the email had no live record before |
| `Verification.RedeemKeepsSingleActive` | user_auth/views.py:110-129 | a redemption keeps at most one live record per email, for every email |
| `Registration.HasVerified` | user_auth/views.py:28-29 | the verification guard passes exactly when some record of the email is both verified and expired |
| `Registration.Register` | user_auth/views.py:15-46 | the first failing guard decides the answer (fields, role in Ops/Client, unused email, completed verification, password rule); only when all pass are one user (username = the email as sent, email = `normalize_email` of it) and one Role row added; a username already taken is a server error, and every refusal leaves the accounts unchanged |
| `Email.NormalizeEmail` | user_auth/views.py:38-43 | the stored email is the request's address stripped, with everything after its last '@' lower-cased and everything up to it kept; an address with no '@' is stored exactly as sent |
| `Email.NormalizeEmailIdempotent` | user_auth/views.py:38-43 | normalizing a stored email again changes nothing |
| `Email.DomainLowerCased` | user_auth/views.py:38-43 | "a@X.com" is stored as "a@x.com" |
| `Registration.RepeatedRequest` | user_auth/views.py:26-43 | the same request sent again after a success gets "Email already exists." exactly when normalizing left the address unchanged, and a server error otherwise |
| `Registration.NormalizedAddressTaken` | user_auth/views.py:26-27 | once an address is registered, a request for its normalized form is refused as an existing email |
| `Registration.VerifiedEnablesRegistration` | user_auth/views.py:28-29 | a successful redemption makes the email pass the verification guard |
| `Registration.UnverifiedNeverRegisters` | user_auth/tests.py:24-32 | without a completed verification no request registers and nothing is created |
| `Registration.IssueDoesNotVerify` | user_auth/views.py:28-29 | issuing codes never makes any email pass the verification guard |
| `Registration.RegisteredRoleIsVisible` | user_auth/views.py:44 | after registering, the role lookup of the share handlers returns the chosen role, which is Ops or Client |
| `Registration.RegistrationAfterVerification` | user_auth/tests.py:57-78 | a verified email with role Ops and password "Test@1234" registers |
| `Share.FindActive` | share/views.py:75 | the record found has the key and is active, and None means no active record has the key |
| `Share.UploadFile` | share/views.py:24-46 | a non-Ops user gets 403 before the file is looked at; then a missing file and then a disallowed extension are refused; only a success adds one record (the uploader, the name, size // 1024, active); every refusal leaves the table unchanged |
| `Share.ListFiles` | share/views.py:49-65 | only a Client gets a listing, with one entry per active record; the query has no `order_by`, and the model lists in primary-key order, which `Seqs.FilterConcat` states |
| `Share.DownloadFile` | share/views.py:68-84 | non-Clients get 403; a missing or inactive file gives 404; otherwise the token seals exactly `"{uid}:{fid}"` |
| `Share.SecureStatus` | share/views.py:86-101 | redemption answers only 200, 400 or 403, never 404 |
| `Share.SecureDownload` | share/views.py:86-101 | an unopenable or malformed token is 400; a token naming another user is 403; a missing or inactive file is 400; success serves that file and sets `last_opened` on it alone |
| `PyPath.Basename` | share/views.py:59 | `basename` is the suffix of the path after its last '/', or the whole path when there is none; it holds no '/' |
| `ShareProperties.PayloadRoundTrip` | share/views.py:80-91 | `"{u}:{f}".split(':')` has exactly two parts and `int()` of them gives back u and f |
| `ShareProperties.OwnLinkServed` | share/tests.py:149-164 | a token sealed for user u and active file f is served to u and only f's `last_opened` changes |
| `ShareProperties.ForeignLinkForbidden` | share/tests.py:166-182 | a token bound to another user answers 403 whatever the File table holds, since the recipient is checked first |
| `ShareProperties.IssuedLinkRedeemable` | share/views.py:80-99 | a link from `download_file` is redeemed by the same user for as long as the file stays active |
| `ShareProperties.DeactivatedFileRefused` | share/views.py:93-95 | a valid token for a missing or inactive file answers 400, not 404 |
| `ShareProperties.ListedExactlyActive` | share/tests.py:90-115 | an entry is listed exactly when some active record produces it |
| `ShareProperties.ListedOncePerRecord` | share/views.py:55-64 | each active record is listed as many times as it occurs, inactive ones never |
| `ShareProperties.ExtensionTestIgnoresCase` | share/views.py:35-36 | two names that differ only in letter case get the same extension verdict |
| `ShareProperties.ExtensionOfStem` | share/views.py:35 | a name made of a stem not starting with a dot and one final `.suffix` has that suffix as its extension |
| `ShareProperties.DocumentAccepted` | share/tests.py:35-39 | any such stem followed by `.docx` or `.DOCX` passes the extension test |
| `ShareProperties.TextFileRefused` | share/tests.py:71-88 | any such stem followed by `.txt` fails the extension test |
| `ShareProperties.HiddenNameRefused` | share/views.py:35-36 | a name whose only dot is its first character, such as ".docx", has an empty extension and fails the test |
| `ShareProperties.StoredSizeInKb` | share/views.py:42 | the stored size is the byte size floor-divided by 1024 |
| `ShareProperties.UploadKeepsKeysUnique` | share/views.py:39-43 | uploading under a fresh key keeps primary keys unique |
| `ShareProperties.FindActiveIsTheRecord` | share/views.py:75 | with unique keys, the lookup finds the active record carrying the key |

## Left out

- `login_view`, `logout_view`, sessions, `authenticate`, `@login_required` redirects and password hashing: framework plumbing. The requesting user is a given integer id.
- The mail transport: the connection, the message and its sending are network I/O. Only the outcome is modelled, as `mailError`, and it is decided after the record is stored.
- Fernet cryptography and key handling: a foreign library. It becomes `Cipher` with the single round-trip hypothesis `Sound`. UTF-8 encoding and decoding of the token and payload is folded into `open`.
- Django ORM, FileField storage, `FileResponse` streaming, `build_absolute_uri`/`reverse`: persistence and HTTP I/O. The link is the token itself, and a served file is its id and basename.
- The 405 answers of `upload_file` and `verify` are modelled. `list_files`, `download_file` and `secure_download` do not check the method, and neither does the model.
- Concurrent issue/redeem races: the model is single-threaded.
- File-name rewriting by the storage: Django's `get_valid_name` turns spaces into '_', drops characters outside `[-\w.]`, shortens the root to fit the 100-character FileField, and a name collision adds a random suffix. The model stores, lists and serves the name as uploaded, so the name `Share.UploadFile` stores and `ListFiles` and `Served` report can differ from the source's.
- URL routing and migrations: declarative configuration. `share/models.py` holds field declarations only; the default `status = True` lives in a base model that is not part of this model, and the model assumes it. The model also assumes that none of `Role`, `Verification`, `File` and their base model declares a `Meta.ordering`, so `.last()` (in `get_user_role` and `verify`) and unordered queries go by primary key.
- JSON values other than strings for `email`, `password`, `role` and `name` (numbers, lists, booleans): the model takes these fields as absent or a string. `code` may also be an integer. Floats, booleans and lists for `code` are not modelled: in the source 1234.0 is compared as "1234.0" and so is never correct, `true` is compared as "True", and `false`, `0.0` or an empty list are falsy and issue a new code.
- `PyText.ParseInt`: Unicode decimal digits and non-ASCII white space, which Python's `int()` also accepts, are not modelled; such input is treated as invalid. The limit of 4300 digits above which `int()` raises ValueError is not modelled either: the model parses digit runs of any length.
- `Share.SecureDownload`: inherits both `PyText.ParseInt` gaps. Only a payload sealed with the server's key reaches `int()`, and `download_file` seals only `str()` of integers, which have neither.
- `Password.IsStrong`: `\d` in Python matches every Unicode decimal digit; the model admits ASCII digits only, so it refuses some passwords the source accepts.
- `PyText.Lower`: only ASCII letters are lower-cased. No non-ASCII character lower-cases to a letter of the allowed extensions, so the extension verdict is the same as the source's.
- `Verification.Verify`: the clock is whole seconds, so `created_at` and `now` are floored before they are subtracted. The source subtracts the full timestamps and `timedelta.seconds` drops only the fraction of the difference, so the 120-second boundary can move by one second: a code issued at 10.9 s and redeemed at 131.2 s verifies in the source (120.3 s elapsed) but is expired in the model (131 - 10 = 121).
- A failure to open the stored file while serving it (an unhandled exception, 500): file-system I/O, outside the model.
- `Registration.Register`: the username is stored as sent. Django applies Unicode NFKC normalization to it, which leaves ASCII addresses unchanged and is not modelled. `Email.NormalizeEmail` lower-cases ASCII letters only, where Python's `str.lower()` also lower-cases other letters, and strips ASCII white space only.
- Malformed request bodies: `json.loads(request.body)` on a body that is not JSON, or `.get` on a JSON value that is not an object, raises an exception that the handlers do not catch, so the answer is a 500. `Verification.Verify` and `Registration.Register` take the body's fields already decoded.
- A `first_name` longer than 150 characters, a `username` longer than 150 or an `email` longer than 254: database column limits, which the model's unbounded strings do not have.

=== FILE: cipher.dfy ===
/**
 The token cipher (Fernet, used without a time-to-live) as an abstract pair of
 functions. `seal` takes a nonce standing for the random IV and timestamp
 Fernet draws on each encryption; `open` answers None for every token it
 refuses. The only thing assumed of a cipher is that opening a sealed
 payload gives the payload back.
 */
module Cipher {
  import opened Wrappers

  datatype Cipher = Cipher(seal: (nat, string) -> string, open: string -> Option<string>)

  ghost predicate Sound(c: Cipher) {
    forall nonce: nat, payload: string :: c.open(c.seal(nonce, payload)) == Some(payload)
  }
}

=== FILE: email.dfy ===
/**
 The address normalization Django's `create_user` applies before storing a
 user's email (`BaseUserManager.normalize_email`).
 */
module Email {
  import opened PyText

  /** `t` with every character after the '@' at position `at` lower-cased. */
  function LowerDomain(t: string, at: nat): (r: string)
    requires at < |t| && t[at] == '@'
    ensures |r| == |t| && r[..at + 1] == t[..at + 1]
    ensures forall j :: at < j < |t| ==> r[j] == LowerChar(t[j])
  {
    t[..at] + "@" + Lower(t[at + 1..])
  }

  /**
   `normalize_email`, which `create_user` applies to the email it stores: the
   address is stripped and split at its last '@', and the domain part is
   lower-cased. An address that has no '@' once stripped is kept exactly as
   given, white space included.
   */
  function NormalizeEmail(email: string): (r: string)
    ensures '@' !in Strip(email, StrSpace) ==> r == email
    ensures '@' in Strip(email, StrSpace) ==>
      var t := Strip(email, StrSpace);
      var at := RFind(t, '@');
      && |r| == |t|
      && r[..at + 1] == t[..at + 1]
      && (forall j :: at < j < |t| ==> r[j] == LowerChar(t[j]))
  {
    var t := Strip(email, StrSpace);
    var at := RFind(t, '@');
    if at < 0 then email else LowerDomain(t, at)
  }

  /** On an address with nothing to strip, normalizing lower-cases what follows the last '@'. */
  lemma NormalizeUnpadded(e: string, at: nat)
    requires Strip(e, StrSpace) == e
    requires at < |e| && RFind(e, '@') == at
    ensures NormalizeEmail(e) == LowerDomain(e, at)
  {
  }

  /** An address with nothing to strip and a lower-case domain is its own normal form. */
  lemma NormalFormIsFixed(r: string, at: nat)
    requires at < |r| && r[at] == '@'
    requires r[0] !in StrSpace && r[|r| - 1] !in StrSpace
    requires forall j :: at < j < |r| ==> r[j] != '@' && LowerChar(r[j]) == r[j]
    ensures NormalizeEmail(r) == r
  {
    StripUnpadded(r, StrSpace);
    RFindAt(r, '@', at);
    NormalizeUnpadded(r, at);
    LowerDomainOfLowerCase(r, at);
  }

  lemma LowerDomainOfLowerCase(r: string, at: nat)
    requires at < |r| && r[at] == '@'
    requires forall j :: at < j < |r| ==> LowerChar(r[j]) == r[j]
    ensures LowerDomain(r, at) == r
  {
    var d := LowerDomain(r, at);
    assert forall j :: 0 <= j <= at ==> d[j] == d[..at + 1][j] == r[..at + 1][j] == r[j];
  }

  /** Normalizing a stored address again changes nothing. */
  lemma NormalizeEmailIdempotent(email: string)
    ensures NormalizeEmail(NormalizeEmail(email)) == NormalizeEmail(email)
  {
    var t := Strip(email, StrSpace);
    var at := RFind(t, '@');
    if at >= 0 {
      NormalizeStripped(email, t, at);
      NormalizedIsFixed(t, at);
    }
  }

  lemma NormalizeStripped(email: string, t: string, at: nat)
    requires t == Strip(email, StrSpace) && at < |t| && at == RFind(t, '@')
    ensures NormalizeEmail(email) == LowerDomain(t, at)
  {
  }

  lemma NormalizedIsFixed(t: string, at: nat)
    requires at < |t| && t[at] == '@'
    requires t[0] !in StrSpace && t[|t| - 1] !in StrSpace
    requires forall j :: at < j < |t| ==> t[j] != '@'
    ensures NormalizeEmail(LowerDomain(t, at)) == LowerDomain(t, at)
  {
    NormalizedShape(t, at);
    NormalFormIsFixed(LowerDomain(t, at), at);
  }

  /** Lowering the domain of a stripped address gives an address in normal form. */
  lemma NormalizedShape(t: string, at: nat)
    requires at < |t| && t[at] == '@'
    requires t[0] !in StrSpace && t[|t| - 1] !in StrSpace
    requires forall j :: at < j < |t| ==> t[j] != '@'
    ensures var r := LowerDomain(t, at);
      && r[at] == '@'
      && r[0] !in StrSpace && r[|r| - 1] !in StrSpace
      && forall j :: at < j < |r| ==> r[j] != '@' && LowerChar(r[j]) == r[j]
  {
    var r := LowerDomain(t, at);
    assert r[at] == r[..at + 1][at];
    assert r[0] == r[..at + 1][0];
    if at < |r| - 1 {
      assert r[|r| - 1] == LowerChar(t[|t| - 1]);
    }
  }

  /** `normalize_email("a@X.com")` is "a@x.com": the stored email can differ from the request's. */
  lemma DomainLowerCased()
    ensures NormalizeEmail("a@X.com") == "a@x.com"
  {
    var e := "a@X.com";
    StripUnpadded(e, StrSpace);
    RFindAt(e, '@', 1);
    NormalizeUnpadded(e, 1);
    var d := LowerDomain(e, 1);
    assert d[..2] == "a@";
    assert d[2..] == "x.com";
    assert d == d[..2] + d[2..];
  }
}

=== FILE: password.dfy ===
/**
 The password rule of registration, the regular expression
 `^(?=.*[a-z])(?=.*[A-Z])(?=.*\d)(?=.*[@$!%*#?&])[A-Za-z\d@$!#%*?&]{6,20}$`
 applied with `re.match`: six to twenty characters from the allowed alphabet,
 among them a lower-case letter, an upper-case letter, a digit and a symbol.
 Because `$` also matches just before a final newline, one trailing "\n" is
 accepted after such a body.
 */
module Password {
  import opened PyText

  const MinLength := 6
  const MaxLength := 20
  const Symbols: string := "@$!%*#?&"

  predicate IsLowerLetter(c: char) {
    'a' <= c <= 'z'
  }

  predicate IsUpperLetter(c: char) {
    'A' <= c <= 'Z'
  }

  predicate IsSymbol(c: char) {
    c in Symbols
  }

  /** The character class `[A-Za-z\d@$!#%*?&]`. */
  predicate IsAllowed(c: char) {
    IsLowerLetter(c) || IsUpperLetter(c) || IsDigit(c) || IsSymbol(c)
  }

  predicate Contains(s: string, p: char -> bool) {
    exists i :: 0 <= i < |s| && p(s[i])
  }

  /** The part of the pattern between `^` and `$`, matched against the whole body. */
  predicate StrongBody(s: string) {
    && MinLength <= |s| <= MaxLength
    && (forall i :: 0 <= i < |s| ==> IsAllowed(s[i]))
    && Contains(s, IsLowerLetter)
    && Contains(s, IsUpperLetter)
    && Contains(s, IsDigit)
    && Contains(s, IsSymbol)
  }

  /** True exactly when `re.match` of the registration pattern succeeds on `s`. */
  predicate IsStrong(s: string)
    ensures IsStrong(s) ==> Contains(s, IsLowerLetter) && Contains(s, IsUpperLetter)
    ensures IsStrong(s) ==> Contains(s, IsDigit) && Contains(s, IsSymbol)
    ensures '\n' !in s ==> (IsStrong(s) <==> StrongBody(s))
  {
    || StrongBody(s)
    || (|s| > 0 && s[|s| - 1] == '\n' && StrongBody(s[..|s| - 1]))
  }

  /** An accepted password has 6 to 20 characters, plus at most one final newline. */
  lemma StrongLength(s: string)
    requires IsStrong(s)
    ensures MinLength <= |s| <= MaxLength + 1
    ensures forall i :: 0 <= i < |s| - 1 ==> IsAllowed(s[i])
    ensures |s| == MaxLength + 1 ==> s[|s| - 1] == '\n'
    ensures IsAllowed(s[|s| - 1]) || (s[|s| - 1] == '\n' && |s| > MinLength)
  {
    if !StrongBody(s) {
      var b := s[..|s| - 1];
      assert forall i :: 0 <= i < |s| - 1 ==> s[i] == b[i];
    }
  }

  /** A newline anywhere but at the very end is never accepted. */
  lemma InnerNewlineRejected(s: string, i: nat)
    requires i < |s| - 1 && s[i] == '\n'
    ensures !IsStrong(s)
  {
    if IsStrong(s) {
      StrongLength(s);
      assert false;
    }
  }

  /** The password the registration tests use is accepted. */
  lemma TestPasswordAccepted()
    ensures IsStrong("Test@1234")
  {
    var s := "Test@1234";
    assert IsUpperLetter(s[0]) && IsLowerLetter(s[1]) && IsSymbol(s[4]) && IsDigit(s[5]);
  }

  /** Six characters are enough, although the error message asks for eight. */
  lemma SixCharactersAccepted()
    ensures IsStrong("Ab1@cd")
    ensures IsStrong("Ab1@cd\n")
  {
    var s := "Ab1@cd";
    assert IsUpperLetter(s[0]) && IsLowerLetter(s[1]) && IsDigit(s[2]) && IsSymbol(s[3]);
    assert ("Ab1@cd\n")[..6] == s;
  }

  /** A password without a symbol is refused whatever its length. */
  lemma NoSymbolRejected(s: string)
    requires forall i :: 0 <= i < |s| ==> !IsSymbol(s[i])
    ensures !IsStrong(s)
  {
    if |s| > 0 {
      var b := s[..|s| - 1];
      assert forall i :: 0 <= i < |b| ==> b[i] == s[i];
    }
  }
}

=== FILE: pypath.dfy ===
/**
 The two `os.path` functions the share handlers call, for POSIX paths
 (separator `/`, extension separator `.`).
 */
module PyPath {
  import opened PyText

  /** True when `p[lo..hi]` consists of dots only. */
  predicate AllDots(p: string, lo: int, hi: int)
    requires 0 <= lo && hi <= |p|
  {
    forall k :: lo <= k < hi ==> p[k] == '.'
  }

  /**
   `os.path.splitext(p)`: the extension runs from the last dot of the last path
   component to the end, unless every character of that component before the
   dot is itself a dot (a "hidden" name such as `.docx` has no extension).
   */
  function SplitExt(p: string): (r: (string, string))
    ensures r.0 + r.1 == p
    ensures r.1 == [] || (r.1[0] == '.' && '.' !in r.1[1..] && '/' !in r.1)
  {
    var sep := RFind(p, '/');
    var dot := RFind(p, '.');
    if dot > sep && !AllDots(p, sep + 1, dot) then (p[..dot], p[dot..]) else (p, [])
  }

  /** The extension `os.path.splitext(p)[1]`. */
  function Extension(p: string): string {
    SplitExt(p).1
  }

  /** `os.path.basename(p)`: everything after the last `/`. */
  function Basename(p: string): (r: string)
    ensures '/' !in r
    ensures |r| <= |p| && r == p[|p| - |r|..]
    ensures |r| == |p| || p[|p| - |r| - 1] == '/'
  {
    p[RFind(p, '/') + 1..]
  }

  /** True when `p[from..]` holds a dot somewhere after a character that is not a dot. */
  predicate DotAfterNonDot(p: string, from: int)
    requires 0 <= from
  {
    exists i, j :: from <= i < j < |p| && p[i] != '.' && p[j] == '.'
  }

  /**
   A path has an extension exactly when its last component (what follows the
   last '/') holds a dot that follows some character other than a dot.
   */
  lemma HasExtensionIff(p: string)
    ensures Extension(p) != [] <==> DotAfterNonDot(p, RFind(p, '/') + 1)
  {
    var off := RFind(p, '/') + 1;
    if Extension(p) != [] {
      var dot := RFind(p, '.');
      var i :| off <= i < dot && p[i] != '.';
      assert p[dot] == '.';
    } else if DotAfterNonDot(p, off) {
      var i, j :| off <= i < j < |p| && p[i] != '.' && p[j] == '.';
      ExtensionAfterNonDot(p, i, j);
    }
  }

  /** A dot after a non-dot, both after the last '/', gives an extension. */
  lemma ExtensionAfterNonDot(p: string, a: int, b: int)
    requires RFind(p, '/') < a < b < |p| && p[a] != '.' && p[b] == '.'
    ensures Extension(p) != []
  {
    var sep := RFind(p, '/');
    var dot := RFind(p, '.');
    assert b <= dot;
    assert !AllDots(p, sep + 1, dot) by {
      assert sep + 1 <= a < dot;
    }
  }

  lemma {:induction false} RFindLower(p: string, c: char)
    requires !('A' <= c <= 'Z') && !('a' <= c <= 'z')
    ensures RFind(Lower(p), c) == RFind(p, c)
  {
    if |p| > 0 {
      assert Lower(p)[..|p| - 1] == Lower(p[..|p| - 1]);
      RFindLower(p[..|p| - 1], c);
    }
  }

  /** Lower-casing a path lower-cases its extension and changes nothing else about it. */
  lemma ExtensionOfLower(p: string)
    ensures Extension(Lower(p)) == Lower(Extension(p))
  {
    RFindLower(p, '/');
    RFindLower(p, '.');
    var sep := RFind(p, '/');
    var dot := RFind(p, '.');
    if dot > sep {
      AllDotsLower(p, sep + 1, dot);
      LowerSuffix(p, dot);
    }
  }

  lemma AllDotsLower(p: string, lo: int, hi: int)
    requires 0 <= lo && hi <= |p|
    ensures AllDots(Lower(p), lo, hi) == AllDots(p, lo, hi)
  {
    var q := Lower(p);
    forall k | lo <= k < hi
      ensures q[k] == '.' <==> p[k] == '.'
    {
      assert q[k] == LowerChar(p[k]);
    }
  }

  lemma LowerSuffix(p: string, d: nat)
    requires d <= |p|
    ensures Lower(p)[d..] == Lower(p[d..])
  {
  }
}

=== FILE: pytext.dfy ===
/**
 The few Python string built-ins the request handlers depend on, over `string`
 (a sequence of code points): `str()` of an integer, `int()` of a string in
 base 10, `str.split` on a one-character separator, `str.rfind` and the ASCII
 part of `str.lower`.
 */
module PyText {
  import opened Wrappers

  predicate IsDigit(c: char) {
    '0' <= c <= '9'
  }

  function DigitValue(c: char): nat
    requires IsDigit(c)
  {
    (c as int) - ('0' as int)
  }

  function DigitChar(d: nat): char
    requires d < 10
  {
    ((('0' as int) + d) as char)
  }

  predicate AllDigits(s: string) {
    forall i :: 0 <= i < |s| ==> IsDigit(s[i])
  }

  // ---------------------------------------------------------------------------
  // str(n)

  /** `str(n)` for a non-negative integer: its decimal digits without leading zeros. */
  function FormatNat(n: nat): (s: string)
    ensures |s| >= 1 && AllDigits(s)
    ensures |s| > 1 ==> s[0] != '0'
    decreases n
  {
    if n < 10 then [DigitChar(n)] else FormatNat(n / 10) + [DigitChar(n % 10)]
  }

  /** `str(n)` for any integer: a minus sign in front of the digits of a negative number. */
  function FormatInt(n: int): (s: string)
    ensures |s| >= 1
    ensures n < 0 <==> s[0] == '-'
    ensures n >= 0 ==> s == FormatNat(n)
    ensures n < 0 ==> s[1..] == FormatNat(-n)
    ensures forall i :: 0 <= i < |s| ==> s[i] == '-' || IsDigit(s[i])
  {
    if n < 0 then "-" + FormatNat(-n) else FormatNat(n)
  }

  /** The number a string of decimal digits denotes, most significant digit first. */
  function DigitsValue(s: string): nat
    requires AllDigits(s)
  {
    if |s| == 0 then 0 else DigitsValue(s[..|s| - 1]) * 10 + DigitValue(s[|s| - 1])
  }

  lemma {:induction false} DigitsValueOfFormatNat(n: nat)
    ensures DigitsValue(FormatNat(n)) == n
    decreases n
  {
    if n >= 10 {
      var s := FormatNat(n);
      assert s[..|s| - 1] == FormatNat(n / 10);
      DigitsValueOfFormatNat(n / 10);
    }
  }

  /** A four-digit code: `str(n)` of a number from 1000 to 9999 has exactly four digits. */
  lemma FormatNatFourDigits(n: nat)
    requires 1000 <= n <= 9999
    ensures |FormatNat(n)| == 4
  {
    assert |FormatNat(n / 1000)| == 1;
    assert |FormatNat(n / 100)| == 2 by {
      assert n / 100 / 10 == n / 1000;
    }
    assert |FormatNat(n / 10)| == 3 by {
      assert n / 10 / 10 == n / 100;
    }
  }

  // ---------------------------------------------------------------------------
  // int(s)

  /**
   The ASCII characters `int()` skips around a literal: ' ' and '\t'..'\r'.
   The separators '\x1c'..'\x1f' are not among them.
   */
  const IntSpace: set<char> := {' ', '\t', '\n', 11 as char, 12 as char, '\r'}

  /** The ASCII characters `str.isspace()` accepts: those of `int()` and the separators '\x1c'..'\x1f'. */
  const StrSpace: set<char> := IntSpace + {28 as char, 29 as char, 30 as char, 31 as char}

  function TrimStart(s: string, space: set<char>): (r: string)
    ensures |r| <= |s| && r == s[|s| - |r|..]
    ensures |r| > 0 ==> r[0] !in space
    ensures forall i :: 0 <= i < |s| - |r| ==> s[i] in space
  {
    if |s| > 0 && s[0] in space then
      var r := TrimStart(s[1..], space);
      assert forall i :: 1 <= i < |s| - |r| ==> s[i] == s[1..][i - 1];
      r
    else s
  }

  function TrimEnd(s: string, space: set<char>): (r: string)
    ensures |r| <= |s| && r == s[..|r|]
    ensures |r| > 0 ==> r[|r| - 1] !in space
    ensures forall i :: |r| <= i < |s| ==> s[i] in space
  {
    if |s| > 0 && s[|s| - 1] in space then
      var r := TrimEnd(s[..|s| - 1], space);
      assert forall i :: |r| <= i < |s| - 1 ==> s[i] == s[..|s| - 1][i];
      r
    else s
  }

  /** Drops the characters `space` accepts from both ends, as `str.strip()` does. */
  function Strip(s: string, space: set<char>): (r: string)
    ensures |r| > 0 ==> r[0] !in space && r[|r| - 1] !in space
    ensures |r| <= |s|
  {
    TrimEnd(TrimStart(s, space), space)
  }

  /**
   The digit part of a base-10 integer literal as `int()` accepts it: digits,
   optionally grouped by single underscores, starting and ending with a digit.
   */
  predicate IsDigitRun(d: string) {
    && |d| >= 1
    && IsDigit(d[0])
    && IsDigit(d[|d| - 1])
    && (forall i :: 0 <= i < |d| ==> IsDigit(d[i]) || d[i] == '_')
    && (forall i :: 0 <= i < |d| - 1 ==> d[i] == '_' ==> d[i + 1] != '_')
  }

  function RemoveUnderscores(d: string): (r: string)
    requires forall i :: 0 <= i < |d| ==> IsDigit(d[i]) || d[i] == '_'
    ensures AllDigits(r)
    ensures AllDigits(d) ==> r == d
  {
    if |d| == 0 then []
    else if d[0] == '_' then RemoveUnderscores(d[1..])
    else [d[0]] + RemoveUnderscores(d[1..])
  }

  function ParseDigitRun(d: string): Option<nat> {
    if IsDigitRun(d) then Some(DigitsValue(RemoveUnderscores(d))) else None
  }

  /** An optional sign followed by a digit run. */
  function ParseSigned(t: string): Option<int> {
    if |t| > 0 && (t[0] == '-' || t[0] == '+') then
      match ParseDigitRun(t[1..])
      case None => None
      case Some(m) =>
        var v: int := if t[0] == '-' then -(m as int) else m;
        Some(v)
    else
      match ParseDigitRun(t)
      case None => None
      case Some(m) => Some(m)
  }

  /**
   Python's `int(s)` on a string, base 10: surrounding white space is ignored,
   one optional sign, then a digit run. None stands for the ValueError raised
   on anything else.
   */
  function ParseInt(s: string): (r: Option<int>)
    ensures r.Some? ==> |Strip(s, IntSpace)| > 0 && IsDigit(Strip(s, IntSpace)[|Strip(s, IntSpace)| - 1])
    ensures r.Some? && r.value < 0 ==> Strip(s, IntSpace)[0] == '-'
  {
    ParseSigned(Strip(s, IntSpace))
  }

  /** `int()` does not take the separator '\x1c' for white space: `int("\x1c5")` raises ValueError. */
  lemma SeparatorPaddingRefused()
    ensures ParseInt([28 as char] + "5") == None
  {
    var s := [28 as char] + "5";
    ParseIntUnpadded(s);
    assert !IsDigit(s[0]);
  }

  /** A string whose ends are not white space is parsed as it stands. */
  lemma ParseIntUnpadded(s: string)
    requires |s| > 0 && s[0] !in IntSpace && s[|s| - 1] !in IntSpace
    ensures ParseInt(s) == ParseSigned(s)
  {
    StripUnpadded(s, IntSpace);
  }

  /** Stripping leaves a string alone whose ends are not white space. */
  lemma StripUnpadded(s: string, space: set<char>)
    requires |s| > 0 && s[0] !in space && s[|s| - 1] !in space
    ensures Strip(s, space) == s
  {
    assert TrimStart(s, space) == s;
  }

  lemma ParseDigitRunOfFormatNat(m: nat)
    ensures ParseDigitRun(FormatNat(m)) == Some(m)
  {
    DigitsValueOfFormatNat(m);
  }

  /** `int(str(n)) == n` for every integer. */
  lemma ParseFormatRoundTrip(n: int)
    ensures ParseInt(FormatInt(n)) == Some(n)
  {
    if n < 0 {
      RoundTripNegative(n);
    } else {
      RoundTripNonNegative(n);
    }
  }

  lemma RoundTripNegative(n: int)
    requires n < 0
    ensures ParseInt(FormatInt(n)) == Some(n)
  {
    var m: nat := -n;
    var s := FormatInt(n);
    assert s == "-" + FormatNat(m);
    StripUnpadded(s, IntSpace);
    ParseSignedNegative(m);
  }

  lemma RoundTripNonNegative(n: int)
    requires n >= 0
    ensures ParseInt(FormatInt(n)) == Some(n)
  {
    var s := FormatInt(n);
    assert s == FormatNat(n);
    StripUnpadded(s, IntSpace);
    ParseSignedNat(n);
  }

  lemma ParseSignedNat(m: nat)
    ensures ParseSigned(FormatNat(m)) == Some(m)
  {
    var t := FormatNat(m);
    assert IsDigit(t[0]);
    ParseDigitRunOfFormatNat(m);
  }

  lemma ParseSignedNegative(m: nat)
    ensures ParseSigned("-" + FormatNat(m)) == Some(-(m as int))
  {
    var t := "-" + FormatNat(m);
    assert t[1..] == FormatNat(m);
    ParseDigitRunOfFormatNat(m);
  }

  // ---------------------------------------------------------------------------
  // s.split(sep)

  /** Python's `s.split(sep)` with a one-character separator (so `"".split(":") == [""]`). */
  function Split(s: string, sep: char): (parts: seq<string>)
    ensures |parts| >= 1
    ensures forall k :: 0 <= k < |parts| ==> sep !in parts[k]
  {
    if |s| == 0 then [""]
    else
      var rest := Split(s[1..], sep);
      if s[0] == sep then [""] + rest else [[s[0]] + rest[0]] + rest[1..]
  }

  /** Python's `sep.join(parts)`. */
  function Join(parts: seq<string>, sep: char): string
    requires |parts| >= 1
  {
    if |parts| == 1 then parts[0] else parts[0] + [sep] + Join(parts[1..], sep)
  }

  /** Splitting and joining back gives the original string. */
  lemma {:induction false} JoinSplit(s: string, sep: char)
    ensures Join(Split(s, sep), sep) == s
  {
    if |s| > 0 {
      JoinSplit(s[1..], sep);
      var rest := Split(s[1..], sep);
      if s[0] != sep {
        var parts := Split(s, sep);
        assert parts[1..] == rest[1..];
        if |rest| > 1 {
          assert Join(rest, sep) == rest[0] + [sep] + Join(rest[1..], sep);
        }
      }
    }
  }

  /** A separator-free prefix becomes the first part, the rest is split on its own. */
  lemma {:induction false} SplitAfterPart(a: string, sep: char, b: string)
    requires sep !in a
    ensures Split(a + [sep] + b, sep) == [a] + Split(b, sep)
  {
    if |a| > 0 {
      assert (a + [sep] + b)[1..] == a[1..] + [sep] + b;
      SplitAfterPart(a[1..], sep, b);
      assert [a[0]] + a[1..] == a;
    } else {
      assert a + [sep] + b == [sep] + b;
    }
  }

  /** A separator-free string is a single part. */
  lemma {:induction false} SplitOfPart(a: string, sep: char)
    requires sep !in a
    ensures Split(a, sep) == [a]
  {
    if |a| > 0 {
      SplitOfPart(a[1..], sep);
      assert [a[0]] + a[1..] == a;
    }
  }

  /** Joining separator-free parts and splitting again gives back the parts. */
  lemma {:induction false} SplitJoin(parts: seq<string>, sep: char)
    requires |parts| >= 1
    requires forall k :: 0 <= k < |parts| ==> sep !in parts[k]
    ensures Split(Join(parts, sep), sep) == parts
  {
    if |parts| == 1 {
      SplitOfPart(parts[0], sep);
    } else {
      SplitJoin(parts[1..], sep);
      SplitAfterPart(parts[0], sep, Join(parts[1..], sep));
      assert parts == [parts[0]] + parts[1..];
    }
  }

  // ---------------------------------------------------------------------------
  // s.rfind(c), s.lower()

  /** Python's `s.rfind(c)`: the index of the last occurrence of `c`, or -1. */
  function RFind(s: string, c: char): (r: int)
    ensures -1 <= r < |s|
    ensures r >= 0 ==> s[r] == c
    ensures forall j :: r < j < |s| ==> s[j] != c
  {
    if |s| == 0 then -1
    else if s[|s| - 1] == c then |s| - 1
    else RFind(s[..|s| - 1], c)
  }

  /** The result of `rfind` is fixed by where the last occurrence is. */
  lemma {:induction false} RFindAt(s: string, c: char, i: int)
    requires -1 <= i < |s|
    requires i >= 0 ==> s[i] == c
    requires forall j :: i < j < |s| ==> s[j] != c
    ensures RFind(s, c) == i
  {
    if |s| > 0 && i < |s| - 1 {
      RFindAt(s[..|s| - 1], c, i);
    }
  }

  function LowerChar(c: char): char {
    if 'A' <= c <= 'Z' then ((c as int) + 32) as char else c
  }

  /** `s.lower()` on ASCII letters; every other character is left as it is. */
  function Lower(s: string): (r: string)
    ensures |r| == |s|
    ensures forall i :: 0 <= i < |s| ==> r[i] == LowerChar(s[i])
  {
    if |s| == 0 then [] else [LowerChar(s[0])] + Lower(s[1..])
  }
}

=== FILE: registration.dfy ===
/**
 The `user_registration` handler: an ordered chain of guards over the request,
 the user table and the verification ledger. The first failing guard decides
 the answer; only when all pass are a user and its Role row created. The
 ledger is read and never written.
 */
module Registration {
  import opened Wrappers
  import opened Seqs
  import opened Roles
  import opened Password
  import opened Email
  import V = Verification

  datatype User = User(id: int, username: string, email: string, firstName: string)

  datatype Accounts = Accounts(users: seq<User>, roles: seq<RoleRow>)

  datatype RegisterRequest = RegisterRequest(
    isPost: bool,
    email: Option<string>,
    password: Option<string>,
    role: Option<string>,
    name: Option<string>)

  datatype RegisterResponse =
    | InvalidDetails
    | InvalidRole
    | EmailExists
    | NotVerified
    | WeakPassword
    | ServerError
    | Registered
    | MethodNotAllowed

  function Status(r: RegisterResponse): int {
    match r
    case Registered => 200
    case ServerError => 500
    case MethodNotAllowed => 405
    case _ => 400
  }

  function Message(r: RegisterResponse): string {
    match r
    case InvalidDetails => "Invalid registration details."
    case InvalidRole => "Invalid role."
    case EmailExists => "Email already exists."
    case NotVerified => "First verify your email."
    case WeakPassword =>
      "Invalid password. Password must contain at least one uppercase letter, one lowercase letter, "
      + "one special character, and be at least 8 characters long."
    // No JSON body: the unhandled IntegrityError becomes the framework's error page.
    case ServerError => ""
    case Registered => "Registration successful!"
    case MethodNotAllowed => "Invalid request method."
  }

  // The guards, in the order the handler applies them.

  predicate FieldsGiven(req: RegisterRequest) {
    V.Given(req.email) && V.Given(req.password) && V.Given(req.role) && V.Given(req.name)
  }

  predicate KnownRole(role: string) {
    role in [Ops, Client]
  }

  predicate EmailInUse(users: seq<User>, email: string) {
    exists k :: 0 <= k < |users| && users[k].email == email
  }

  predicate UsernameInUse(users: seq<User>, username: string) {
    exists k :: 0 <= k < |users| && users[k].username == username
  }

  /** No user row carries the primary key `id`. */
  predicate UserIdUnused(users: seq<User>, id: int) {
    forall k :: 0 <= k < |users| ==> users[k].id != id
  }

  predicate IsCompletedFor(r: V.Record, email: string) {
    r.email == email && r.isVerified && r.isExpired
  }

  /** Some redemption of a code sent to `email` succeeded (the `.last()` lookup found a record). */
  predicate HasVerified(ledger: V.Ledger, email: string)
    ensures HasVerified(ledger, email) <==> exists k :: 0 <= k < |ledger| && IsCompletedFor(ledger[k], email)
  {
    LastIndexWhere(ledger, (r: V.Record) => IsCompletedFor(r, email)).Some?
  }

  /** Every guard passes. */
  predicate Admissible(req: RegisterRequest, accounts: Accounts, ledger: V.Ledger) {
    && req.isPost
    && FieldsGiven(req)
    && KnownRole(req.role.value)
    && !EmailInUse(accounts.users, req.email.value)
    && HasVerified(ledger, req.email.value)
    && IsStrong(req.password.value)
  }

  /**
   `user_registration`. `freshId` is the primary key the database assigns to
   the new user; the database never hands out a key already in use.
   */
  function Register(req: RegisterRequest, accounts: Accounts, ledger: V.Ledger, freshId: int)
    : (r: (RegisterResponse, Accounts))
    requires UserIdUnused(accounts.users, freshId)
    ensures r.0 == MethodNotAllowed <==> !req.isPost
    ensures r.0 == InvalidDetails <==> req.isPost && !FieldsGiven(req)
    ensures r.0 == InvalidRole <==> req.isPost && FieldsGiven(req) && !KnownRole(req.role.value)
    ensures r.0 == EmailExists <==>
      req.isPost && FieldsGiven(req) && KnownRole(req.role.value) && EmailInUse(accounts.users, req.email.value)
    ensures r.0 == NotVerified <==>
      && req.isPost && FieldsGiven(req) && KnownRole(req.role.value)
      && !EmailInUse(accounts.users, req.email.value) && !HasVerified(ledger, req.email.value)
    ensures r.0 == WeakPassword <==>
      && req.isPost && FieldsGiven(req) && KnownRole(req.role.value)
      && !EmailInUse(accounts.users, req.email.value) && HasVerified(ledger, req.email.value)
      && !IsStrong(req.password.value)
    ensures r.0 == Registered <==>
      Admissible(req, accounts, ledger) && !UsernameInUse(accounts.users, req.email.value)
    ensures r.0 != Registered ==> r.1 == accounts
    ensures r.0 == Registered ==>
      && r.1.users == accounts.users + [User(freshId, req.email.value, NormalizeEmail(req.email.value), req.name.value)]
      && r.1.roles == accounts.roles + [RoleRow(freshId, req.role.value)]
  {
    if !req.isPost then (MethodNotAllowed, accounts)
    else if !FieldsGiven(req) then (InvalidDetails, accounts)
    else
      var email, password, role, name := req.email.value, req.password.value, req.role.value, req.name.value;
      if !KnownRole(role) then (InvalidRole, accounts)
      else if EmailInUse(accounts.users, email) then (EmailExists, accounts)
      else if !HasVerified(ledger, email) then (NotVerified, accounts)
      else if !IsStrong(password) then (WeakPassword, accounts)
      // `create_user(username=email, ...)` fails on the unique username column.
      else if UsernameInUse(accounts.users, email) then (ServerError, accounts)
      else
        var user := User(freshId, email, NormalizeEmail(email), name);
        (Registered, Accounts(accounts.users + [user], accounts.roles + [RoleRow(freshId, role)]))
  }

  // ---------------------------------------------------------------------------
  // Properties

  /**
   The same request sent twice. The email guard compares the raw address with
   the stored, normalized one, so the second request gets "Email already
   exists." only when normalizing left the address unchanged; otherwise it
   passes every guard and `create_user` fails on the taken username.
   */
  lemma RepeatedRequest(req: RegisterRequest, accounts: Accounts, ledger: V.Ledger, id1: int, id2: int)
    requires UserIdUnused(accounts.users, id1)
    requires Register(req, accounts, ledger, id1).0 == Registered
    requires UserIdUnused(Register(req, accounts, ledger, id1).1.users, id2)
    ensures Register(req, Register(req, accounts, ledger, id1).1, ledger, id2).0
      == if NormalizeEmail(req.email.value) == req.email.value then EmailExists else ServerError
  {
    var after := Register(req, accounts, ledger, id1).1;
    var e := req.email.value;
    var n := |accounts.users|;
    assert after.users[n].email == NormalizeEmail(e) && after.users[n].username == e;
    assert UsernameInUse(after.users, e);
    if NormalizeEmail(e) == e {
      assert EmailInUse(after.users, e);
    } else {
      assert !EmailInUse(after.users, e) by {
        forall k | 0 <= k < |after.users|
          ensures after.users[k].email != e
        {
          if k < n {
            assert after.users[k] == accounts.users[k];
          }
        }
      }
    }
  }

  /** Once an address is registered, a request whose email is its normalized form is refused. */
  lemma NormalizedAddressTaken(req: RegisterRequest, accounts: Accounts, ledger: V.Ledger, id1: int,
                               other: RegisterRequest, id2: int)
    requires UserIdUnused(accounts.users, id1)
    requires Register(req, accounts, ledger, id1).0 == Registered
    requires UserIdUnused(Register(req, accounts, ledger, id1).1.users, id2)
    requires other.isPost && FieldsGiven(other) && KnownRole(other.role.value)
    requires other.email.value == NormalizeEmail(req.email.value)
    ensures Register(other, Register(req, accounts, ledger, id1).1, ledger, id2).0 == EmailExists
  {
    var after := Register(req, accounts, ledger, id1).1;
    assert after.users[|accounts.users|].email == other.email.value;
  }

  /** A successful redemption is what later lets the email register. */
  lemma VerifiedEnablesRegistration(ledger: V.Ledger, email: string, code: string, now: int)
    requires V.Redeem(ledger, email, code, now).0 == V.CodeVerified
    ensures HasVerified(V.Redeem(ledger, email, code, now).1, email)
  {
    var i := V.LastActive(ledger, email).value;
    assert IsCompletedFor(V.Redeem(ledger, email, code, now).1[i], email);
  }

  /** Without a completed verification no password, however strong, gets an account. */
  lemma UnverifiedNeverRegisters(req: RegisterRequest, accounts: Accounts, ledger: V.Ledger, freshId: int)
    requires UserIdUnused(accounts.users, freshId)
    requires FieldsGiven(req) && !HasVerified(ledger, req.email.value)
    ensures Register(req, accounts, ledger, freshId).0 != Registered
    ensures Register(req, accounts, ledger, freshId).1 == accounts
  {
  }

  /** Issuing codes alone never counts as verification. */
  lemma IssueDoesNotVerify(ledger: V.Ledger, email: string, code: int, now: int, other: string)
    requires V.MinCode <= code <= V.MaxCode
    ensures HasVerified(V.Issue(ledger, email, code, now), other) <==> HasVerified(ledger, other)
  {
    var after := V.Issue(ledger, email, code, now);
    assert forall k :: 0 <= k < |ledger| ==> after[k] == ledger[k];
    assert !IsCompletedFor(after[|ledger|], other);
  }

  /** The role chosen at registration is the role the share handlers will see. */
  lemma RegisteredRoleIsVisible(req: RegisterRequest, accounts: Accounts, ledger: V.Ledger, freshId: int)
    requires UserIdUnused(accounts.users, freshId)
    requires Register(req, accounts, ledger, freshId).0 == Registered
    ensures GetUserRole(Register(req, accounts, ledger, freshId).1.roles, freshId) == Some(req.role.value)
    ensures KnownRole(req.role.value)
  {
    RoleOfNewRow(accounts.roles, freshId, req.role.value);
  }

  /** The registration test: a verified email, role Ops and the password "Test@1234" register. */
  lemma RegistrationAfterVerification(freshId: int)
    ensures
      var req := RegisterRequest(true, Some("test@example.com"), Some("Test@1234"), Some("Ops"), Some("Test User"));
      var ledger := [V.Record("test@example.com", "1234", 0, true, true)];
      Register(req, Accounts([], []), ledger, freshId).0 == Registered
  {
    TestPasswordAccepted();
    var ledger := [V.Record("test@example.com", "1234", 0, true, true)];
    assert IsCompletedFor(ledger[0], "test@example.com");
  }
}

=== FILE: roles.dfy ===
/**
 The Role table: each row assigns a role name to a user id. A user's role is
 the role of the last row for that user, or None when there is none
 (`get_user_role`).
 */
module Roles {
  import opened Wrappers
  import opened Seqs

  const Ops: string := "Ops"
  const Client: string := "Client"

  datatype RoleRow = RoleRow(userId: int, role: string)

  /** `get_user_role`: the role of the user's most recent Role row. */
  function GetUserRole(roles: seq<RoleRow>, user: int): (r: Option<string>)
    ensures r.None? <==> forall k :: 0 <= k < |roles| ==> roles[k].userId != user
    ensures r.Some? ==>
      exists k :: 0 <= k < |roles| && roles[k] == RoleRow(user, r.value) &&
        forall j :: k < j < |roles| ==> roles[j].userId != user
  {
    var k := LastIndexWhere(roles, (row: RoleRow) => row.userId == user);
    if k.Some? then Some(roles[k.value].role) else None
  }

  /** A newly added row decides the role of its user. */
  lemma RoleOfNewRow(roles: seq<RoleRow>, user: int, role: string)
    ensures GetUserRole(roles + [RoleRow(user, role)], user) == Some(role)
  {
  }

  /** A newly added row does not change the role of any other user. */
  lemma RoleOfOtherUser(roles: seq<RoleRow>, user: int, other: int, role: string)
    requires other != user
    ensures GetUserRole(roles + [RoleRow(other, role)], user) == GetUserRole(roles, user)
  {
    var s := roles + [RoleRow(other, role)];
    assert s[..|s| - 1] == roles;
  }
}

=== FILE: seqs.dfy ===
/**
 Queries over sequences of records. The ORM tables of the system are modelled as
 sequences in primary-key order, so Django's `.last()` on a filtered query is the
 last element that satisfies the filter, and `.filter(...)` keeps the matching
 elements in order.
 */
module Seqs {
  import opened Wrappers

  /** Index of the last element satisfying `p`, or None when no element does. */
  function LastIndexWhere<T>(s: seq<T>, p: T -> bool): (r: Option<nat>)
    ensures r.Some? ==> r.value < |s| && p(s[r.value])
    ensures r.Some? ==> forall j :: r.value < j < |s| ==> !p(s[j])
    ensures r.None? <==> forall j :: 0 <= j < |s| ==> !p(s[j])
  {
    if |s| == 0 then None
    else if p(s[|s| - 1]) then Some(|s| - 1)
    else LastIndexWhere(s[..|s| - 1], p)
  }

  /** Index of the first element satisfying `p`, or None when no element does. */
  function FirstIndexWhere<T>(s: seq<T>, p: T -> bool): (r: Option<nat>)
    ensures r.Some? ==> r.value < |s| && p(s[r.value])
    ensures r.Some? ==> forall j :: 0 <= j < r.value ==> !p(s[j])
    ensures r.None? <==> forall j :: 0 <= j < |s| ==> !p(s[j])
  {
    if |s| == 0 then None
    else if p(s[0]) then Some(0)
    else
      var k := FirstIndexWhere(s[1..], p);
      if k.Some? then Some(k.value + 1) else None
  }

  /** The elements of `s` satisfying `p`, in their original order. */
  function Filter<T>(s: seq<T>, p: T -> bool): (r: seq<T>)
    ensures |r| <= |s|
    ensures forall x :: x in r ==> x in s && p(x)
  {
    if |s| == 0 then []
    else if p(s[|s| - 1]) then Filter(s[..|s| - 1], p) + [s[|s| - 1]]
    else Filter(s[..|s| - 1], p)
  }

  /** Filtering a concatenation filters each part and keeps them in order. */
  lemma {:induction false} FilterConcat<T>(a: seq<T>, b: seq<T>, p: T -> bool)
    ensures Filter(a + b, p) == Filter(a, p) + Filter(b, p)
    decreases |b|
  {
    if |b| > 0 {
      var init, last := b[..|b| - 1], b[|b| - 1];
      assert (a + b)[..|a + b| - 1] == a + init;
      FilterConcat(a, init, p);
    } else {
      assert a + b == a;
    }
  }

  /** Every element satisfying `p` is kept as often as it occurs, every other one is dropped. */
  lemma {:induction false} FilterMultiplicity<T>(s: seq<T>, p: T -> bool, x: T)
    ensures multiset(Filter(s, p))[x] == if p(x) then multiset(s)[x] else 0
  {
    if |s| == 0 {
    } else {
      var init, last := s[..|s| - 1], s[|s| - 1];
      assert s == init + [last];
      FilterMultiplicity(init, p, x);
    }
  }
}

=== FILE: share.dfy ===
/**
 The file-sharing handlers: upload (Ops only), listing and link generation
 (Client only) and redemption of a download link. The File table is a
 sequence of records in primary-key order; the Role table, the requesting
 user's id, the cipher, fresh primary keys and the clock are parameters.
 */
module Share {
  import opened Wrappers
  import opened Seqs
  import opened PyText
  import opened PyPath
  import opened Roles
  import opened Cipher

  datatype FileRecord = FileRecord(
    id: int,
    owner: int,
    name: string,
    sizeKb: int,
    status: bool,
    lastOpened: int)

  type Store = seq<FileRecord>

  /** An uploaded file as the request carries it: its name and its size in bytes. */
  datatype Upload = Upload(name: string, size: nat)

  const AllowedExtensions: seq<string> := [".pptx", ".docx", ".xlsx"]

  /** The extension test of `upload_file`: the lower-cased `splitext` extension is allowed. */
  predicate AllowedName(name: string)
    ensures AllowedName(name) ==> |Extension(name)| == 5 && Extension(name)[0] == '.'
  {
    Lower(Extension(name)) in AllowedExtensions
  }

  /** Primary keys are unique. */
  predicate UniqueIds(store: Store) {
    forall i, j :: 0 <= i < j < |store| ==> store[i].id != store[j].id
  }

  predicate IdUnused(store: Store, id: int) {
    forall k :: 0 <= k < |store| ==> store[k].id != id
  }

  predicate IsActiveFile(f: FileRecord, id: int) {
    f.id == id && f.status
  }

  /** `File.objects.get(id=id, status=True)`: the index of the active record with that key. */
  function FindActive(store: Store, id: int): (r: Option<nat>)
    ensures r.Some? ==> r.value < |store| && IsActiveFile(store[r.value], id)
    ensures r.None? <==> forall k :: 0 <= k < |store| ==> !IsActiveFile(store[k], id)
  {
    FirstIndexWhere(store, (f: FileRecord) => IsActiveFile(f, id))
  }

  // ---------------------------------------------------------------------------
  // upload_file

  datatype UploadResponse = OnlyOps | NoFile | InvalidType | Uploaded(fileId: int) | MethodNotAllowed

  function UploadStatus(r: UploadResponse): int {
    match r
    case OnlyOps => 403
    case NoFile => 400
    case InvalidType => 400
    case Uploaded(_) => 200
    case MethodNotAllowed => 405
  }

  /** An uploaded file object is truthy when it has a name. */
  predicate FileGiven(file: Option<Upload>) {
    file.Some? && file.value.name != ""
  }

  /**
   `upload_file`. `freshId` is the key the database assigns to the new record
   and `now` the time `last_opened` is stamped with on creation.
   */
  function UploadFile(isPost: bool, roles: seq<RoleRow>, user: int, file: Option<Upload>,
                      store: Store, freshId: int, now: int): (r: (UploadResponse, Store))
    requires IdUnused(store, freshId)
    ensures r.0 == MethodNotAllowed <==> !isPost
    ensures r.0 == OnlyOps <==> isPost && GetUserRole(roles, user) != Some(Ops)
    ensures r.0 == NoFile <==> isPost && GetUserRole(roles, user) == Some(Ops) && !FileGiven(file)
    ensures r.0 == InvalidType <==>
      isPost && GetUserRole(roles, user) == Some(Ops) && FileGiven(file) && !AllowedName(file.value.name)
    ensures r.0.Uploaded? <==>
      isPost && GetUserRole(roles, user) == Some(Ops) && FileGiven(file) && AllowedName(file.value.name)
    ensures !r.0.Uploaded? ==> r.1 == store
    ensures r.0.Uploaded? ==>
      && r.0.fileId == freshId
      && |r.1| == |store| + 1 && r.1[..|store|] == store
      && r.1[|store|] == FileRecord(freshId, user, file.value.name, file.value.size / 1024, true, now)
  {
    if !isPost then (MethodNotAllowed, store)
    else if GetUserRole(roles, user) != Some(Ops) then (OnlyOps, store)
    else if !FileGiven(file) then (NoFile, store)
    else if !AllowedName(file.value.name) then (InvalidType, store)
    else
      var rec := FileRecord(freshId, user, file.value.name, file.value.size / 1024, true, now);
      (Uploaded(freshId), store + [rec])
  }

  // ---------------------------------------------------------------------------
  // list_files

  datatype Entry = Entry(id: int, fileName: string, sizeKb: int, lastOpened: int)

  function EntryOf(f: FileRecord): Entry {
    Entry(f.id, Basename(f.name), f.sizeKb, f.lastOpened)
  }

  function ActiveFiles(store: Store): seq<FileRecord> {
    Filter(store, (f: FileRecord) => f.status)
  }

  datatype ListResponse = OnlyClientsList | Files(entries: seq<Entry>)

  /** `list_files`: Client users get one entry per active file, in primary-key order (the query sets no order). */
  function ListFiles(roles: seq<RoleRow>, user: int, store: Store): (r: ListResponse)
    ensures r.Files? <==> GetUserRole(roles, user) == Some(Client)
    ensures r.Files? ==>
      && |r.entries| == |ActiveFiles(store)|
      && forall k :: 0 <= k < |r.entries| ==> r.entries[k] == EntryOf(ActiveFiles(store)[k])
  {
    if GetUserRole(roles, user) != Some(Client) then OnlyClientsList
    else
      var active := ActiveFiles(store);
      Files(seq(|active|, k requires 0 <= k < |active| => EntryOf(active[k])))
  }

  // ---------------------------------------------------------------------------
  // download_file

  /** The plaintext of a download token: `"{uid}:{fid}"`. */
  function Payload(user: int, fileId: int): (r: string)
    ensures Split(r, ':') == [FormatInt(user), FormatInt(fileId)]
  {
    var a, b := FormatInt(user), FormatInt(fileId);
    assert ':' !in a && ':' !in b;
    assert Join([a, b], ':') == a + ":" + b;
    SplitJoin([a, b], ':');
    a + ":" + b
  }

  datatype DownloadResponse = OnlyClientsDownload | FileNotFound | Link(token: string)

  function DownloadStatus(r: DownloadResponse): int {
    match r
    case OnlyClientsDownload => 403
    case FileNotFound => 404
    case Link(_) => 200
  }

  /** `download_file`: a Client gets a token for an active file, sealed with `nonce`. */
  function DownloadFile(c: Cipher, nonce: nat, roles: seq<RoleRow>, user: int, fileId: int, store: Store)
    : (r: DownloadResponse)
    ensures r == OnlyClientsDownload <==> GetUserRole(roles, user) != Some(Client)
    ensures r == FileNotFound <==> GetUserRole(roles, user) == Some(Client) && FindActive(store, fileId).None?
    ensures r.Link? ==> r.token == c.seal(nonce, Payload(user, fileId))
  {
    if GetUserRole(roles, user) != Some(Client) then OnlyClientsDownload
    else
      match FindActive(store, fileId)
      case None => FileNotFound
      case Some(k) => Link(c.seal(nonce, Payload(user, store[k].id)))
  }

  // ---------------------------------------------------------------------------
  // secure_download

  datatype SecureResponse = InvalidLink | NotForYou | Served(fileId: int, fileName: string)

  function SecureStatus(r: SecureResponse): (s: int)
    ensures s in {200, 400, 403}
  {
    match r
    case InvalidLink => 400
    case NotForYou => 403
    case Served(_, _) => 200
  }

  /** The two fields of a decrypted payload, when it has exactly two. */
  function Fields(payload: string): (r: Option<(string, string)>)
    ensures r.Some? ==> payload == r.value.0 + ":" + r.value.1
    ensures r.Some? ==> ':' !in r.value.0 && ':' !in r.value.1
    ensures ':' !in payload ==> r.None?
  {
    var parts := Split(payload, ':');
    JoinSplit(payload, ':');
    assert |parts| == 2 ==> Join(parts, ':') == parts[0] + [':'] + parts[1];
    if |parts| == 2 then Some((parts[0], parts[1])) else None
  }

  /** The recipient a token names, when it opens and its first field is an integer. */
  function Recipient(c: Cipher, token: string): (r: Option<int>)
    ensures r.Some? ==> c.open(token).Some? && Fields(c.open(token).value).Some?
    ensures r.Some? ==> ParseInt(Fields(c.open(token).value).value.0) == r
  {
    match c.open(token)
    case None => None
    case Some(payload) =>
      match Fields(payload)
      case None => None
      case Some(fields) => ParseInt(fields.0)
  }

  /** The file a token names, when it opens and its second field is an integer. */
  function Target(c: Cipher, token: string): (r: Option<int>)
    ensures r.Some? ==> c.open(token).Some? && Fields(c.open(token).value).Some?
    ensures r.Some? ==> ParseInt(Fields(c.open(token).value).value.1) == r
  {
    match c.open(token)
    case None => None
    case Some(payload) =>
      match Fields(payload)
      case None => None
      case Some(fields) => ParseInt(fields.1)
  }

  /**
   `secure_download`: open the token, split it, check the recipient, then
   look the file up. Every failure except a wrong recipient is the same
   "Invalid or expired link."; a served file gets `last_opened = now`.
   */
  function SecureDownload(c: Cipher, token: string, user: int, store: Store, now: int)
    : (r: (SecureResponse, Store))
    ensures c.open(token).None? ==> r == (InvalidLink, store)
    ensures Recipient(c, token).None? ==> r == (InvalidLink, store)
    ensures r.0 == NotForYou <==> Recipient(c, token).Some? && Recipient(c, token).value != user
    ensures r.0.Served? <==>
      && Recipient(c, token) == Some(user)
      && Target(c, token).Some?
      && FindActive(store, Target(c, token).value).Some?
    ensures !r.0.Served? ==> r.1 == store
    ensures r.0.Served? ==>
      var k := FindActive(store, Target(c, token).value).value;
      && r.0 == Served(store[k].id, Basename(store[k].name))
      && |r.1| == |store|
      && r.1[k] == store[k].(lastOpened := now)
      && forall j :: 0 <= j < |store| && j != k ==> r.1[j] == store[j]
  {
    match c.open(token)
    case None => (InvalidLink, store)
    case Some(payload) =>
      match Fields(payload)
      case None => (InvalidLink, store)
      case Some(fields) =>
        match ParseInt(fields.0)
        case None => (InvalidLink, store)
        case Some(recipient) =>
          if recipient != user then (NotForYou, store)
          else
            match ParseInt(fields.1)
            case None => (InvalidLink, store)
            case Some(fileId) =>
              match FindActive(store, fileId)
              case None => (InvalidLink, store)
              case Some(k) =>
                (Served(store[k].id, Basename(store[k].name)), store[k := store[k].(lastOpened := now)])
  }
}

=== FILE: share_properties.dfy ===
/** Properties of the file-sharing handlers that relate several calls or many inputs. */
module ShareProperties {
  import opened Wrappers
  import opened Seqs
  import opened PyText
  import opened PyPath
  import opened Roles
  import opened Cipher
  import opened Share

  /** `"{u}:{f}".split(':')` has exactly two fields, and `int()` of each gives back u and f. */
  lemma PayloadRoundTrip(user: int, fileId: int)
    ensures Fields(Payload(user, fileId)) == Some((FormatInt(user), FormatInt(fileId)))
    ensures ParseInt(FormatInt(user)) == Some(user)
    ensures ParseInt(FormatInt(fileId)) == Some(fileId)
  {
    var a, b := FormatInt(user), FormatInt(fileId);
    assert ':' !in a && ':' !in b;
    var parts := [a, b];
    assert Join(parts, ':') == Payload(user, fileId);
    SplitJoin(parts, ':');
    ParseFormatRoundTrip(user);
    ParseFormatRoundTrip(fileId);
  }

  /** A token sealed for user u and active file f is served to u, and only f is touched. */
  lemma OwnLinkServed(c: Cipher, nonce: nat, user: int, fileId: int, store: Store, now: int)
    requires Sound(c)
    requires FindActive(store, fileId).Some?
    ensures
      var k := FindActive(store, fileId).value;
      SecureDownload(c, c.seal(nonce, Payload(user, fileId)), user, store, now)
        == (Served(fileId, Basename(store[k].name)), store[k := store[k].(lastOpened := now)])
  {
    PayloadRoundTrip(user, fileId);
  }

  /**
   The recipient is checked before the file: a token bound to another user is
   refused with 403 whatever the File table holds.
   */
  lemma ForeignLinkForbidden(c: Cipher, nonce: nat, owner: int, fileId: int, user: int, store: Store, now: int)
    requires Sound(c)
    requires owner != user
    ensures SecureDownload(c, c.seal(nonce, Payload(owner, fileId)), user, store, now) == (NotForYou, store)
  {
    PayloadRoundTrip(owner, fileId);
  }

  /** A link issued by `download_file` can be redeemed by the same user while the file is active. */
  lemma IssuedLinkRedeemable(c: Cipher, nonce: nat, roles: seq<RoleRow>, user: int, fileId: int,
                             store: Store, later: Store, now: int)
    requires Sound(c)
    requires DownloadFile(c, nonce, roles, user, fileId, store).Link?
    requires FindActive(later, fileId).Some?
    ensures SecureDownload(c, DownloadFile(c, nonce, roles, user, fileId, store).token, user, later, now).0.Served?
    ensures SecureDownload(c, DownloadFile(c, nonce, roles, user, fileId, store).token, user, later, now).0.fileId
      == fileId
  {
    OwnLinkServed(c, nonce, user, fileId, later, now);
  }

  /** Once a file is deactivated, links issued for it stop working (400, never 404). */
  lemma DeactivatedFileRefused(c: Cipher, nonce: nat, user: int, fileId: int, store: Store, now: int)
    requires Sound(c)
    requires FindActive(store, fileId).None?
    ensures SecureDownload(c, c.seal(nonce, Payload(user, fileId)), user, store, now) == (InvalidLink, store)
  {
    PayloadRoundTrip(user, fileId);
  }

  /** A listing holds an entry exactly for the active records of the File table. */
  lemma ListedExactlyActive(roles: seq<RoleRow>, user: int, store: Store, e: Entry)
    requires ListFiles(roles, user, store).Files?
    ensures e in ListFiles(roles, user, store).entries <==>
      exists k :: 0 <= k < |store| && store[k].status && EntryOf(store[k]) == e
  {
    if e in ListFiles(roles, user, store).entries {
      ListedOnlyActive(roles, user, store, e);
    }
    if exists k :: 0 <= k < |store| && store[k].status && EntryOf(store[k]) == e {
      var k :| 0 <= k < |store| && store[k].status && EntryOf(store[k]) == e;
      ActiveIsListed(roles, user, store, k);
    }
  }

  lemma ListedOnlyActive(roles: seq<RoleRow>, user: int, store: Store, e: Entry)
    requires ListFiles(roles, user, store).Files?
    requires e in ListFiles(roles, user, store).entries
    ensures exists k :: 0 <= k < |store| && store[k].status && EntryOf(store[k]) == e
  {
    var entries := ListFiles(roles, user, store).entries;
    var active := ActiveFiles(store);
    var i :| 0 <= i < |entries| && entries[i] == e;
    assert active[i] in active;
    var k :| 0 <= k < |store| && store[k] == active[i];
    assert store[k].status && EntryOf(store[k]) == e;
  }

  lemma ActiveIsListed(roles: seq<RoleRow>, user: int, store: Store, k: nat)
    requires ListFiles(roles, user, store).Files?
    requires k < |store| && store[k].status
    ensures EntryOf(store[k]) in ListFiles(roles, user, store).entries
  {
    var entries := ListFiles(roles, user, store).entries;
    var active := ActiveFiles(store);
    FilterMultiplicity(store, (f: FileRecord) => f.status, store[k]);
    assert store[k] in multiset(store);
    assert store[k] in multiset(active);
    var i :| 0 <= i < |active| && active[i] == store[k];
    assert entries[i] == EntryOf(store[k]);
  }

  /** Each active record is listed as often as it occurs in the table; inactive ones not at all. */
  lemma ListedOncePerRecord(store: Store, f: FileRecord)
    ensures multiset(ActiveFiles(store))[f] == if f.status then multiset(store)[f] else 0
  {
    FilterMultiplicity(store, (g: FileRecord) => g.status, f);
  }

  /** The allow-list test ignores letter case. */
  lemma ExtensionTestIgnoresCase(a: string, b: string)
    requires Lower(a) == Lower(b)
    ensures AllowedName(a) <==> AllowedName(b)
  {
    ExtensionOfLower(a);
    ExtensionOfLower(b);
  }

  /**
   A name made of a stem that does not start with a dot and one final
   `.suffix` has that suffix as its extension.
   */
  lemma ExtensionOfStem(stem: string, ext: string)
    requires |stem| > 0 && stem[0] != '.' && '/' !in stem
    requires |ext| > 0 && ext[0] == '.' && '.' !in ext[1..] && '/' !in ext
    ensures Extension(stem + ext) == ext
  {
    var p := stem + ext;
    assert RFind(p, '/') == -1 by {
      RFindAt(p, '/', -1);
    }
    assert RFind(p, '.') == |stem| by {
      RFindAt(p, '.', |stem|) by {
        forall j | |stem| < j < |p| ensures p[j] != '.' {
          assert p[j] == ext[1..][j - |stem| - 1];
        }
      }
    }
    ExtensionAtStemEnd(stem, ext);
  }

  lemma ExtensionAtStemEnd(stem: string, ext: string)
    requires |stem| > 0 && stem[0] != '.'
    requires RFind(stem + ext, '/') == -1 && RFind(stem + ext, '.') == |stem|
    ensures Extension(stem + ext) == ext
  {
    var p := stem + ext;
    assert p[|stem|..] == ext;
    assert !AllDots(p, 0, |stem|) by {
      assert p[0] == stem[0];
    }
  }

  /** Word documents pass the upload test whatever the case of the suffix, as the upload tests expect. */
  lemma DocumentAccepted(stem: string)
    requires |stem| > 0 && stem[0] != '.' && '/' !in stem
    ensures AllowedName(stem + ".docx")
    ensures AllowedName(stem + ".DOCX")
  {
    ExtensionOfStem(stem, ".docx");
    ExtensionOfStem(stem, ".DOCX");
    assert Lower(".DOCX") == ".docx";
  }

  /** A text file, as in the invalid-type test, is refused. */
  lemma TextFileRefused(stem: string)
    requires |stem| > 0 && stem[0] != '.' && '/' !in stem
    ensures !AllowedName(stem + ".txt")
  {
    ExtensionOfStem(stem, ".txt");
  }

  /** A name whose only dot is its first character has no extension and is refused. */
  lemma HiddenNameRefused(rest: string)
    requires '.' !in rest && '/' !in rest
    ensures Extension("." + rest) == ""
    ensures !AllowedName("." + rest)
  {
    var p := "." + rest;
    RFindAt(p, '/', -1);
    RFindAt(p, '.', 0) by {
      forall j | 0 < j < |p| ensures p[j] != '.' {
        assert p[j] == rest[j - 1];
      }
    }
  }

  /** The stored size is the byte size in whole kibibytes, rounded down. */
  lemma StoredSizeInKb(isPost: bool, roles: seq<RoleRow>, user: int, file: Option<Upload>,
                       store: Store, freshId: int, now: int)
    requires IdUnused(store, freshId)
    requires UploadFile(isPost, roles, user, file, store, freshId, now).0.Uploaded?
    ensures
      var kb := UploadFile(isPost, roles, user, file, store, freshId, now).1[|store|].sizeKb;
      kb * 1024 <= file.value.size < (kb + 1) * 1024
  {
  }

  /** Uploading under a fresh key keeps primary keys unique. */
  lemma UploadKeepsKeysUnique(isPost: bool, roles: seq<RoleRow>, user: int, file: Option<Upload>,
                              store: Store, freshId: int, now: int)
    requires UniqueIds(store) && IdUnused(store, freshId)
    ensures UniqueIds(UploadFile(isPost, roles, user, file, store, freshId, now).1)
  {
  }

  /** With unique keys the looked-up record is the only one carrying that key. */
  lemma FindActiveIsTheRecord(store: Store, k: nat)
    requires UniqueIds(store) && k < |store| && store[k].status
    ensures FindActive(store, store[k].id) == Some(k)
  {
  }
}

=== FILE: verification.dfy ===
/**
 The email-verification ledger and the `verify` request handler.

 The Verification table is a sequence of records in insertion order. A request
 carrying only an email issues a new four-digit code (appending a record); a
 request carrying an email and a code redeems the latest non-expired record of
 that email. The random code, the clock (whole seconds) and the outcome of the
 mail dispatch are parameters.
 */
module Verification {
  import opened Wrappers
  import opened Seqs
  import opened PyText

  datatype Record = Record(email: string, code: string, createdAt: int, isExpired: bool, isVerified: bool)

  type Ledger = seq<Record>

  const WindowSeconds := 120
  const SecondsPerDay := 86400
  const MinCode := 1000
  const MaxCode := 9999

  /** A JSON request value: missing or null, a string, or a number. */
  datatype Field = Absent | Text(text: string) | Number(number: int)

  /** Python truthiness of a request value. */
  predicate Truthy(f: Field) {
    match f
    case Absent => false
    case Text(t) => t != ""
    case Number(n) => n != 0
  }

  /** `str()` of a present request value. */
  function Str(f: Field): string
    requires !f.Absent?
  {
    match f
    case Text(t) => t
    case Number(n) => FormatInt(n)
  }

  /** A string field that is present and non-empty. */
  predicate Given(field: Option<string>) {
    field.Some? && field.value != ""
  }

  datatype VerifyRequest = VerifyRequest(isPost: bool, email: Option<string>, code: Field)

  datatype VerifyResponse =
    | CodeSent
    | MailFailed(reason: string)
    | CodeVerified
    | CodeExpired
    | CodeIncorrect
    | CodeMissing
    | SendCode
    | MethodNotAllowed

  function Status(r: VerifyResponse): int {
    match r
    case CodeSent => 200
    case MailFailed(_) => 500
    case CodeVerified => 200
    case CodeExpired => 400
    case CodeIncorrect => 400
    case CodeMissing => 400
    case SendCode => 400
    case MethodNotAllowed => 405
  }

  function Message(r: VerifyResponse): string {
    match r
    case CodeSent => "Sent verification code to email."
    case MailFailed(reason) => "Failed to send email: " + reason
    case CodeVerified => "Code verified"
    case CodeExpired => "Expired code"
    case CodeIncorrect => "Code is not correct"
    case CodeMissing => "Code does not exist"
    case SendCode => "Send code"
    case MethodNotAllowed => "Invalid request method"
  }

  predicate IsActiveFor(r: Record, email: string) {
    r.email == email && !r.isExpired
  }

  /** The record a redemption looks at: the last non-expired record of `email`. */
  function LastActive(ledger: Ledger, email: string): (r: Option<nat>)
    ensures r.Some? ==> r.value < |ledger| && IsActiveFor(ledger[r.value], email)
    ensures r.Some? ==> forall j :: r.value < j < |ledger| ==> !IsActiveFor(ledger[j], email)
    ensures r.None? <==> forall j :: 0 <= j < |ledger| ==> !IsActiveFor(ledger[j], email)
  {
    LastIndexWhere(ledger, (rec: Record) => IsActiveFor(rec, email))
  }

  /**
   The window test `timediff.seconds <= 120`. `timedelta.seconds` is the
   seconds field of the normalised difference, in 0..86399; whole days are
   dropped.
   */
  predicate WithinWindow(createdAt: int, now: int)
    ensures createdAt <= now <= createdAt + WindowSeconds ==> WithinWindow(createdAt, now)
    ensures createdAt + WindowSeconds < now < createdAt + SecondsPerDay ==> !WithinWindow(createdAt, now)
  {
    (now - createdAt) % SecondsPerDay <= WindowSeconds
  }

  /** The issue branch: store a new, non-expired, unverified record with `str(code)`. */
  function Issue(ledger: Ledger, email: string, code: int, now: int): (r: Ledger)
    requires MinCode <= code <= MaxCode
    ensures |r| == |ledger| + 1 && r[..|ledger|] == ledger
    ensures r[|ledger|].email == email && r[|ledger|].createdAt == now
    ensures !r[|ledger|].isExpired && !r[|ledger|].isVerified
    ensures |r[|ledger|].code| == 4 && ParseInt(r[|ledger|].code) == Some(code)
    ensures LastActive(r, email) == Some(|ledger|)
  {
    FormatNatFourDigits(code);
    ParseFormatRoundTrip(code);
    ledger + [Record(email, FormatInt(code), now, false, false)]
  }

  /** The redeem branch for a given email and the `str()` of the given code. */
  function Redeem(ledger: Ledger, email: string, code: string, now: int): (r: (VerifyResponse, Ledger))
    ensures |r.1| == |ledger|
    ensures r.0 == CodeMissing <==> LastActive(ledger, email).None?
    ensures r.0 == CodeIncorrect <==>
      LastActive(ledger, email).Some? && ledger[LastActive(ledger, email).value].code != code
    ensures r.0 == CodeVerified <==>
      && LastActive(ledger, email).Some?
      && ledger[LastActive(ledger, email).value].code == code
      && WithinWindow(ledger[LastActive(ledger, email).value].createdAt, now)
    ensures r.0 == CodeExpired <==>
      && LastActive(ledger, email).Some?
      && ledger[LastActive(ledger, email).value].code == code
      && !WithinWindow(ledger[LastActive(ledger, email).value].createdAt, now)
    ensures r.0 == CodeMissing || r.0 == CodeIncorrect ==> r.1 == ledger
    ensures r.0 == CodeVerified || r.0 == CodeExpired ==>
      var i := LastActive(ledger, email).value;
      && r.1[i] == ledger[i].(isExpired := true, isVerified := ledger[i].isVerified || r.0 == CodeVerified)
      && forall j :: 0 <= j < |ledger| && j != i ==> r.1[j] == ledger[j]
  {
    match LastActive(ledger, email)
    case None => (CodeMissing, ledger)
    case Some(i) =>
      var check := ledger[i];
      if code != check.code then (CodeIncorrect, ledger)
      else if WithinWindow(check.createdAt, now) then
        (CodeVerified, ledger[i := check.(isExpired := true, isVerified := true)])
      else
        (CodeExpired, ledger[i := check.(isExpired := true)])
  }

  /**
   The `verify` handler. `randomCode` is the value drawn by
   `random.randint(1000, 9999)`, `now` the current time in seconds and
   `mailError` the failure of the mail dispatch, if any.
   */
  function Verify(req: VerifyRequest, ledger: Ledger, randomCode: int, now: int, mailError: Option<string>)
    : (r: (VerifyResponse, Ledger))
    requires MinCode <= randomCode <= MaxCode
    ensures !req.isPost ==> r == (MethodNotAllowed, ledger)
    ensures req.isPost && Given(req.email) && !Truthy(req.code) ==>
      && r.1 == Issue(ledger, req.email.value, randomCode, now)
      && r.0 == (if mailError.None? then CodeSent else MailFailed(mailError.value))
    ensures req.isPost && Given(req.email) && Truthy(req.code) ==>
      r == Redeem(ledger, req.email.value, Str(req.code), now)
    ensures req.isPost && !Given(req.email) ==> r == (SendCode, ledger)
  {
    if !req.isPost then (MethodNotAllowed, ledger)
    else if Given(req.email) && !Truthy(req.code) then
      var next := Issue(ledger, req.email.value, randomCode, now);
      match mailError
      case None => (CodeSent, next)
      case Some(reason) => (MailFailed(reason), next)
    else if Truthy(req.code) && Given(req.email) then
      Redeem(ledger, req.email.value, Str(req.code), now)
    else (SendCode, ledger)
  }

  // ---------------------------------------------------------------------------
  // Properties

  /** Within one day the window test is the plain comparison `elapsed <= 120`. */
  lemma WindowWithinOneDay(createdAt: int, now: int)
    requires 0 <= now - createdAt < SecondsPerDay
    ensures WithinWindow(createdAt, now) <==> now - createdAt <= WindowSeconds
  {
  }

  /** Whole days are ignored: a code redeemed one day and a minute after issue is in the window. */
  lemma WindowIgnoresDays(createdAt: int, days: nat, seconds: int)
    requires 0 <= seconds < SecondsPerDay
    ensures WithinWindow(createdAt, createdAt + days * SecondsPerDay + seconds) <==> seconds <= WindowSeconds
  {
    assert (days * SecondsPerDay + seconds) % SecondsPerDay == seconds;
  }

  /** A clock running backwards by less than a day minus two minutes puts the redemption outside the window. */
  lemma NegativeElapsedExpired(createdAt: int, now: int)
    requires createdAt - SecondsPerDay + WindowSeconds < now < createdAt
    ensures !WithinWindow(createdAt, now)
  {
    assert (now - createdAt) % SecondsPerDay == now - createdAt + SecondsPerDay;
  }

  /** Issuing a code and redeeming it in time verifies it (the code may arrive as text or as a number). */
  lemma IssueThenRedeem(ledger: Ledger, email: string, code: int, issuedAt: int, now: int, sent: Field)
    requires email != "" && MinCode <= code <= MaxCode
    requires sent == Text(FormatInt(code)) || sent == Number(code)
    requires WithinWindow(issuedAt, now)
    ensures
      var issued := Issue(ledger, email, code, issuedAt);
      var r := Verify(VerifyRequest(true, Some(email), sent), issued, MinCode, now, None);
      && r.0 == CodeVerified
      && r.1 == ledger + [Record(email, FormatInt(code), issuedAt, true, true)]
  {
    var issued := Issue(ledger, email, code, issuedAt);
    var req := VerifyRequest(true, Some(email), sent);
    assert Given(req.email) && Truthy(sent) && Str(sent) == FormatInt(code);
    var r := Redeem(issued, email, FormatInt(code), now);
    assert Verify(req, issued, MinCode, now, None) == r;
    var i := |ledger|;
    assert LastActive(issued, email) == Some(i);
    assert r.0 == CodeVerified;
    assert r.1 == issued[i := issued[i].(isExpired := true, isVerified := true)];
    assert r.1[..i] == ledger;
  }

  /** The mail dispatch cannot undo the issue: the record is stored whether or not the mail goes out. */
  lemma IssueSurvivesMailFailure(req: VerifyRequest, ledger: Ledger, code: int, now: int, reason: string)
    requires req.isPost && Given(req.email) && !Truthy(req.code)
    requires MinCode <= code <= MaxCode
    ensures Verify(req, ledger, code, now, Some(reason)).1 == Verify(req, ledger, code, now, None).1
    ensures Status(Verify(req, ledger, code, now, Some(reason)).0) == 500
  {
  }

  /** After a successful redemption the redeemed record is out of play; only older active records remain. */
  lemma {:induction false} RedeemedRecordRetired(ledger: Ledger, email: string, code: string, now: int)
    requires Redeem(ledger, email, code, now).0 == CodeVerified
    ensures
      var i := LastActive(ledger, email).value;
      LastActive(Redeem(ledger, email, code, now).1, email) == LastActive(ledger[..i], email)
  {
    var i := LastActive(ledger, email).value;
    var after := Redeem(ledger, email, code, now).1;
    assert after[..i] == ledger[..i];
    LastActiveIgnoresRetired(after, i, email);
  }

  /** Records after position `n` that are all retired do not affect the lookup. */
  lemma {:induction false} LastActiveIgnoresRetired(ledger: Ledger, n: nat, email: string)
    requires n <= |ledger|
    requires forall j :: n <= j < |ledger| ==> !IsActiveFor(ledger[j], email)
    ensures LastActive(ledger, email) == LastActive(ledger[..n], email)
  {
    if n < |ledger| {
      var init := ledger[..|ledger| - 1];
      assert init[..n] == ledger[..n];
      LastActiveIgnoresRetired(init, n, email);
    } else {
      assert ledger[..n] == ledger;
    }
  }

  /** At most one non-expired record for the email, which holds while no second code is issued before the first is redeemed. */
  predicate SingleActive(ledger: Ledger, email: string) {
    forall i, j :: 0 <= i < j < |ledger| && IsActiveFor(ledger[i], email) ==> !IsActiveFor(ledger[j], email)
  }

  /** With a single active record, redeeming the same code again finds no code at all. */
  lemma ReplayFindsNoCode(ledger: Ledger, email: string, code: string, now: int, later: int)
    requires SingleActive(ledger, email)
    requires Redeem(ledger, email, code, now).0 == CodeVerified
    ensures
      var after := Redeem(ledger, email, code, now).1;
      Redeem(after, email, code, later) == (CodeMissing, after)
  {
    RedeemedRecordRetired(ledger, email, code, now);
    var i := LastActive(ledger, email).value;
    assert forall j :: 0 <= j < i ==> !IsActiveFor(ledger[..i][j], email);
  }

  /**
   Latest-wins, as the code behaves: after two issues the first code is
   refused as incorrect, not as missing; once the second code is redeemed the
   first one is live again and verifies if still in its window.
   */
  lemma SupersededCodeResurrects(email: string, c1: int, c2: int, t1: int, t2: int, t3: int, t4: int)
    requires email != "" && MinCode <= c1 <= MaxCode && MinCode <= c2 <= MaxCode && c1 != c2
    requires WithinWindow(t2, t3) && WithinWindow(t1, t4)
    ensures
      var l1 := Issue([], email, c1, t1);
      var l2 := Issue(l1, email, c2, t2);
      var r1 := Redeem(l2, email, FormatInt(c1), t3);
      var r2 := Redeem(r1.1, email, FormatInt(c2), t3);
      var r3 := Redeem(r2.1, email, FormatInt(c1), t4);
      && r1 == (CodeIncorrect, l2)
      && r2.0 == CodeVerified
      && r3.0 == CodeVerified
  {
    var l1 := Issue([], email, c1, t1);
    var l2 := Issue(l1, email, c2, t2);
    ParseFormatRoundTrip(c1);
    ParseFormatRoundTrip(c2);
    assert FormatInt(c1) != FormatInt(c2);
    var r2 := Redeem(l2, email, FormatInt(c2), t3);
    assert r2.1[0] == l2[0];
    assert LastActive(r2.1, email) == Some(0);
  }

  /** An issue keeps a single active record only if there was none before it. */
  lemma IssueKeepsSingleActive(ledger: Ledger, email: string, code: int, now: int)
    requires MinCode <= code <= MaxCode
    ensures SingleActive(Issue(ledger, email, code, now), email) <==>
      SingleActive(ledger, email) && LastActive(ledger, email).None?
  {
    var after := Issue(ledger, email, code, now);
    assert forall j :: 0 <= j < |ledger| ==> after[j] == ledger[j];
  }

  /** A redemption never creates an active record, so it keeps a single active record single. */
  lemma RedeemKeepsSingleActive(ledger: Ledger, email: string, code: string, now: int, other: string)
    requires SingleActive(ledger, other)
    ensures SingleActive(Redeem(ledger, email, code, now).1, other)
  {
    var after := Redeem(ledger, email, code, now).1;
    forall i, j | 0 <= i < j < |after| && IsActiveFor(after[i], other)
      ensures !IsActiveFor(after[j], other)
    {
      assert IsActiveFor(ledger[i], other);
    }
  }
}

=== FILE: wrappers.dfy ===
/** Option type used for the source's "None" returns and failed lookups. */
module Wrappers {

  datatype Option<+T> = None | Some(value: T)
}
